=== FILE: README.md ===
# Real-estate agency core, modelled in Dafny

This project models the logic at the centre of a small real-estate rental
agency's record keeping. The records are realtors, clients, properties
(apartments, houses, land), rental offers, rental demands, and the deals
that pair one offer with one demand. It has three parts:

- **Matching engine** (`matching.dfy`). `Database.check_match` decides
  whether an offer on a property satisfies a demand. `get_matching_offers`
  filters the listed offers with it. Python's dictionaries become
  immutable datatypes with `Option` fields. The type-specific columns
  become tagged unions (`Details`, `Criteria`). The filter takes the
  properties as a `map<int, Property>` and the already-paired offer ids as
  a `set<int>`.
- **Commission engine** (`commission.dfy`). `CommissionCalculator`
  computes the landlord-side ("seller") and tenant-side ("buyer")
  commissions and splits each between the side's realtor and the agency.
  Amounts are exact `real`s. The realtor lookup `db.get_realtor` becomes a
  `map<int, Realtor>` parameter.
- **Store bookkeeping** (`store.dfy`, `invariants.dfy`, `text.dfy`). The
  guarded `add_*`, `delete_*` and `add_deal` operations work on an
  abstract store: one table per entity, with AUTOINCREMENT ids. The
  schema's CHECK, UNIQUE and reference constraints form the invariant
  `StoreInvariants.Valid`, and every operation is proved to preserve it.
  `Text.Strip` models Python's `str.strip()`, applied to a client's phone
  and e-mail.

`agency.dfy` connects the parts:

- Offers returned by the filter can be paired by `add_deal`.
- The commission calculator is run on a deal as `get_deal` assembles it.

`wrappers.dfy` defines `Option` and `Result`. `records.dfy` defines the
records and one well-formedness predicate per table CHECK.

Notes on the source's behaviour that the model reproduces:

- A demand's address field constrains only when it is set and non-empty.
  Python's truthiness makes `""` mean "don't care".
- `add_realtor` inserts `commission_share` explicitly, so an omitted share
  is stored as NULL and the column's `DEFAULT 45.0` never applies. The
  calculator's `or 45.0` is what turns NULL, or a stored 0, into 45%.
- A realtor id of 0 counts as "no realtor" in the calculator, because of
  Python truthiness. This gives the 0.45 fallback, which is a separate
  branch from the 45% default even though the two values are equal.
- `add_client` stores a phone made only of whitespace as the empty
  string, not as NULL, provided the e-mail is valid.
- The range policy is asymmetric. A demand's maximum is consulted only
  when its minimum is also set (`Matching.RangePolicyAsymmetric`).

## Model

| member | source | states |
|---|---|---|
| Records.ParseType | database.py:313-314 | a type name is accepted exactly when it is "apartment", "house" or "land", and the accepted name is the one the type prints as |
| Records.ParseTypeName | database.py:46 | the three stored type names read back as their types, and no two types share a name |
| Matching.CheckRange | database.py:744-751 | one attribute: no constraint when the demand's minimum or the property's value is missing; with min and max, min ≤ v ≤ max; with min only, v ≥ min |
| Matching.CheckMatch | database.py:723-803 | the early-return test accepts exactly when type, address, price band, period band and the type's ranges all hold; a type mismatch always rejects; acceptance implies both bands and every set address field agree |
| Matching.AddressFieldExact | database.py:727-734 | a set, non-empty address field passes exactly the properties with an equal field and rejects a NULL one; an unset or empty field passes everything |
| Matching.BandsInclusive | database.py:736-740 | price and period exactly at either end of the band pass; one unit outside either end fails |
| Matching.MaxOnlyIgnored | database.py:744-751 | with no minimum, an attribute never rejects, whatever the maximum and the value |
| Matching.RangePolicyAsymmetric | database.py:744-751 | a max-only bound of 50 admits 1000, while a min-only bound of 50 rejects 1 |
| Matching.MatchIgnoresBookkeeping | database.py:723-803 | the result depends only on criteria, addresses, bands, details, price and period; ids, clients, realtors and coordinates never change it |
| Matching.UnboundedAttributeIrrelevant | database.py:742-801 | floor (apartment), floors (house), rooms or area with no demand minimum can take any value without changing the result |
| Matching.MatchingOffers | database.py:702-721 | an offer is kept exactly when it is listed, unpaired, has a known property and matches, and the result is an order-preserving subsequence of the list |
| Matching.MatchingOffersKeepsCopies | database.py:710-719 | the filter keeps every listed copy of an eligible offer and no copy of any other offer |
| Matching.GetMatchingOffers | database.py:702-721 | the source's loop returns [] for an unknown demand; otherwise it returns the order-preserving subsequence of exactly the unpaired offers with a known, matching property, never longer than the list |
| Commission.SellerCommission | commission_calculator.py:7-16 | apartment 3000 + p, land 5000 + 5% of the yearly rent (0.6·p), house 5000 + p/4, any other name 0 |
| Commission.BuyerCommission | commission_calculator.py:19-20 | a tenth of the monthly rent, never more than the rent when it is non-negative, for every property type |
| Commission.SellerCommissionShape | commission_calculator.py:7-16 | on a non-negative rent each known type earns at least its fixed fee and strictly more for a higher rent; every type name earns ≥ 0 |
| Commission.FindRealtor | commission_calculator.py:44-45 | a realtor is found exactly when the id is given, non-zero and on record |
| Commission.RealtorFraction | commission_calculator.py:47-48 | a found realtor keeps share/100, and NULL or 0 means 45%; an absent, zero or unknown id gives 0.45 |
| Commission.RealtorFractionBounds | commission_calculator.py:47-48 | with shares in [0,100], the fraction lies in (0, 1] |
| Commission.Split | commission_calculator.py:50-53 | the two realtor shares and the company share add up to the two commissions |
| Commission.DealCommissions | commission_calculator.py:23-53 | a missing deal or missing offer key gives all zeros; otherwise realtor shares plus company share equal the total commission (conservation before rounding) |
| Commission.SharesBounded | commission_calculator.py:47-53 | with shares in [0,100] and a non-negative price, each realtor gets between 0 and their own side's commission, and the company's share is ≥ 0 |
| Commission.SidesIndependent | commission_calculator.py:41-51 | the seller share uses the offer's realtor and the buyer share uses the demand's realtor; changing one side's realtor leaves the other side's share unchanged |
| Commission.OfferType | commission_calculator.py:34-35 | the type under the offer's nested property, or "apartment" when the property or its type is missing |
| Commission.OfferPrice | commission_calculator.py:36 | the offer's price as a real number, or 0 when the price is missing |
| Commission.BuyerRealtorId | commission_calculator.py:42 | the demand's realtor id, and none when the demand or its realtor id is missing |
| Commission.MissingKeysDefault | commission_calculator.py:34-36 | an offer with no nested property is charged the apartment fee; one with no price pays no buyer commission |
| Commission.WorkedExample | commission_calculator.py:33-53 | an apartment let at 10000 with unknown realtors, or with a realtor whose share is unset, splits as 13000, 1000, 5850, 450 and 7700 |
| Text.TrimStart | database.py:240-241 | the result is the suffix of the input left after the leading whitespace, and it is empty or starts with a non-space |
| Text.TrimEnd | database.py:240-241 | the result is the prefix of the input left before the trailing whitespace, and it is empty or ends with a non-space |
| Text.Strip | database.py:240-241 | the stripped text is the slice of the input between its leading and its trailing whitespace, and is empty exactly when the input is all whitespace |
| Text.StripDetermined | database.py:240-241 | that description has one answer: any slice with only whitespace outside it and a non-space at each end is what `strip()` returns |
| Store.NormalizeContact | database.py:240-241 | a missing or empty contact stays missing; any other becomes its stripped text, which may be empty |
| Store.NormalizeContactTruthy | database.py:240-244 | after normalisation a phone or e-mail counts as given exactly when it contains a non-space character |
| Store.RealtorInputError | database.py:179-182 | an empty name part is refused first, then a share outside [0,100]; the input passes exactly when all three name parts are non-empty and the share is absent or in [0,100], and a passing row satisfies the share CHECK |
| Store.AddRealtor | database.py:176-186 | fails exactly when a check fails, with that check's error; otherwise it inserts the realtor, with its share as given, under a fresh id and touches nothing else |
| Store.DeleteRealtor | database.py:202-216 | an unknown id raises; a realtor named by an offer or demand is kept and False is returned; otherwise only that row is removed and True is returned |
| Store.ClientInputError | database.py:243-247 | no phone and no e-mail is refused, then an e-mail without '@'; the input passes exactly when some contact is given and a given e-mail holds '@', and then the phone-or-e-mail CHECK holds |
| Store.AddClient | database.py:237-252 | fails exactly when the normalised contacts fail a check; otherwise it inserts the client with the normalised phone and e-mail under a fresh id |
| Store.DeleteClient | database.py:272-286 | an unknown id raises; a client named by an offer or demand is kept and False is returned; otherwise only that row is removed |
| Store.Table.Insert | database.py:22 | a new row gets an id above every id in the table, the counter moves past it, and no other row changes |
| Store.DetailsFor | database.py:325-330 | the extension row built for a type belongs to that type and takes its columns from the matching arguments: floor, rooms and area for an apartment, floors, rooms and area for a house, area for land |
| Store.PropertyInputError | database.py:313-319 | an unknown type is refused first, then a latitude outside [-90,90], then a longitude outside [-180,180]; the input passes exactly when the type is known and the coordinates satisfy the latitude and longitude CHECKs |
| Store.AddProperty | database.py:308-330 | fails exactly when a check fails; otherwise it inserts, under a fresh id, a well-formed property of the named type with the given address, latitude and longitude and the extension row for that type |
| Store.DeleteProperty | database.py:339-345 | a property used by an offer is kept and False is returned; otherwise its row, if any, is removed and True is returned |
| Store.OfferInputError | database.py:419-434 | a non-positive price is refused first, then a non-positive period, then a missing client, realtor and property in that order; the input passes exactly when both numbers are positive and all three rows exist |
| Store.AddOffer | database.py:416-438 | fails exactly when a check fails; otherwise it inserts a well-formed offer that carries its fresh id |
| Store.DeleteOffer | database.py:466-477 | an unknown id raises; an offer in a deal is kept and False is returned; otherwise only that row is removed |
| Store.DeleteDemand | database.py:549-555 | a demand in a deal is kept and False is returned; otherwise its row, if any, is removed and True is returned |
| Store.IsDemandSatisfied | database.py:692-695 | a demand is satisfied exactly when the count of deal rows naming it is positive |
| Store.IsOfferSatisfied | database.py:697-700 | an offer is satisfied exactly when the count of deal rows naming it is positive |
| Store.SatisfiedOffers | database.py:697-700 | an id is in the set exactly when `is_offer_satisfied` holds for it |
| Store.DealInputError | database.py:608-620 | a missing demand is reported first, then a missing offer, then a demand already in a deal, then an offer already in a deal; the pair passes exactly when both rows exist and neither is in a deal |
| Store.AddDeal | database.py:604-627 | fails exactly when a guard fails; otherwise it adds the one deal under a fresh id, after which both the demand and the offer are satisfied |
| Store.DeleteDeal | database.py:644-647 | removes only that deal's row |
| StoreInvariants.InitialValid | database.py:17-174 | the empty store is valid and nothing in it is paired |
| StoreInvariants.AddRealtorPreservesValid | database.py:26-27 | a successful add_realtor keeps the store valid and its new row satisfies the share CHECK |
| StoreInvariants.AddClientPreservesValid | database.py:39 | a successful add_client keeps the store valid and its new row satisfies the phone-or-e-mail CHECK |
| StoreInvariants.AddPropertyPreservesValid | database.py:53-54 | a successful add_property keeps the store valid, including the coordinate CHECKs |
| StoreInvariants.AddOfferPreservesValid | database.py:92-96 | a successful add_offer keeps the store valid: positive price and period, and existing client, realtor and property |
| StoreInvariants.AddDealPreservesValid | database.py:166-167 | a successful add_deal keeps the store valid, so every demand and every offer is in at most one deal, and no other deal names the new deal's demand or offer |
| StoreInvariants.RunAddDealsKeepsPairing | database.py:604-627 | after any sequence of add_deal calls, failed ones included, the store is valid, so the deals pair demands and offers one to one, and every deal recorded before is still there unchanged |
| StoreInvariants.DeleteRealtorPreservesValid | database.py:208-213 | the realtor delete guard is enough to keep every offer's and demand's realtor on record |
| StoreInvariants.DeleteClientPreservesValid | database.py:278-283 | the client delete guard is enough to keep every offer's and demand's client on record |
| StoreInvariants.DeletePropertyPreservesValid | database.py:340-342 | the property delete guard is enough to keep every offer's property on record |
| StoreInvariants.DeleteOfferPreservesValid | database.py:472-474 | the offer delete guard is enough to keep every deal's offer on record |
| StoreInvariants.DeleteDemandPreservesValid | database.py:550-552 | the demand delete guard is enough to keep every deal's demand on record |
| StoreInvariants.DeleteDealPreservesValid | database.py:644-647 | removing a deal keeps the store valid |
| StoreInvariants.DeleteDealUndoesAddDeal | database.py:644-647 | deleting a deal just added restores the earlier rows, and the same pair can be added again |
| Agency.MatchedOffersCanBePaired | database.py:702-721 | for an unpaired demand, every offer the filter returns from stored offers passes the add_deal guards |
| Agency.StoredDealView | database.py:667-690 | a deal is built exactly for a stored deal id; its offer carries the offer row's price and realtor id but no nested property, and its demand carries the demand row's realtor id |
| Agency.StoredDealCommissions | commission_calculator.py:23-53 | an unknown deal gives all zeros; the shares of a stored deal add up to its commissions |
| Agency.StoredDealsChargeApartmentFee | commission_calculator.py:34-35 | as the code is written, every stored deal's seller commission is 3000 plus its rent, whatever the property type |
| Agency.HouseDealChargedAsApartment | commission_calculator.py:34-35 | a stored house deal at 10000 is charged 13000, but the house formula gives 7500 |
| Agency.NestedDealView | commission_calculator.py:34-35 | the intended deal carries the offer's property type nested under `property`, its price and realtor id, and the demand's realtor id |
| Agency.IntendedDealCommissions | commission_calculator.py:23-53 | the intended commissions are zero for an unknown deal, and their shares add up to the commissions |
| Agency.IntendedDealsChargeByType | commission_calculator.py:34-38 | read as intended, a stored deal is charged by its own property's type, the buyer commission and the buyer realtor's share are unchanged, and each share stays within its commission |
| Agency.HouseDealChargedAsHouse | commission_calculator.py:34-38 | read as intended, the house deal at 10000 is charged 7500 |

## Findings

| source | as written | input that shows it | evidently intended | confidence | as-written member | corrected member |
|---|---|---|---|---|---|---|
| commission_calculator.py:34-35 | The type is read from `offer['property']['type']`. `get_deal` fills `deal['offer']` from `get_offer` (database.py:497-507, 688), which flattens the property's columns into the offer and has no `property` key. So the type always defaults to "apartment". | a stored house deal let at 10000 a month: seller commission 13000 | 7500 by the house formula (5000 + 10000/4) | medium; not executed | Agency.HouseDealChargedAsApartment | Agency.IntendedDealsChargeByType |

## Left out

- SQLite connections, cursors, commit and rollback, logging, and executing
  the DDL are persistence, not logic. The schema's CHECKs survive as the
  predicates in `records.dfy` and the invariant `StoreInvariants.Valid`.
- The `get_*` queries with LIKE search and ORDER BY are SQL. The matching
  filter takes its offers as a sequence in the order given.
- `add_demand`, `update_*` and `update_deal` have no guards of their own
  and rely on the storage layer. Demands therefore enter the model only
  through the store's initial contents.
- Foreign keys are not enforced at the SQL level (no `PRAGMA
  foreign_keys`). Referential integrity is stated as part of `Valid` and
  proved to be kept by the guarded operations only.
- `round(..., 2)` and IEEE-754 floating point: every commission amount
  is an exact, unrounded real.
- Commission.DealCommissions: a deal whose `offer` or `demand` key holds
  `None` makes the source raise. `DealView` cannot express a present key
  holding `None`, so that crash is out of the model. `Agency.StoredDealView`
  requires that the deal's demand and offer rows exist, because the
  source raises otherwise.
- Commission.OfferType: a nested property whose `type` key holds `None`
  cannot be expressed. `properties.type` is NOT NULL, so this does not
  arise from the store.
- Matching.CheckMatch: the source's chain of type tests has no `else`
  branch. A type outside the three known ones would skip step 5, but the
  schema and `PropertyType` admit only those three.
- `created_at` timestamps and the ordering of deals have no bearing on
  the logic.
- The PyQt widgets and `main.py` are out of scope, including the UI's
  "spin value 0 means unset" mapping. The model takes `Option` fields
  directly.
- Store.DetailsFor: the lines of database.py:325-330 that read the
  type-specific keyword arguments are not part of this model. Its
  contract takes each extension column from the keyword argument of the
  same name: `floor`/`rooms`/`area` for apartments,
  `floors`/`rooms`/`area` for houses and `area` for land. These are the
  column lists of the three INSERTs.

=== FILE: agency.dfy ===
/** How the engines meet the store: the matching filter run against stored
    offers and deals, and the commission calculator run on a stored deal as
    `get_deal` assembles it (database.py:667-690 with `get_offer` at
    database.py:497-507). */
module Agency {
  import opened Wrappers
  import opened Records
  import opened Store
  import opened StoreInvariants
  import Matching
  import Commission

  /** Every offer the filter returns for an unpaired stored demand, drawn
      from stored offers with the store's satisfied set, can be paired with
      that demand by `add_deal`. */
  lemma MatchedOffersCanBePaired(s: State, demandId: int, listed: seq<Offer>)
    requires Valid(s)
    requires demandId in s.demands.rows && !IsDemandSatisfied(s, demandId)
    requires forall i :: 0 <= i < |listed| ==> listed[i].id in s.offers.rows
    ensures forall o :: o in Matching.MatchingOffers(s.demands.rows[demandId], listed,
                                                     s.properties.rows, SatisfiedOffers(s)) ==>
      AddDeal(s, demandId, o.id).Success?
  {
    var m := Matching.MatchingOffers(s.demands.rows[demandId], listed, s.properties.rows, SatisfiedOffers(s));
    forall o | o in m
      ensures AddDeal(s, demandId, o.id).Success?
    {
      assert o.id !in SatisfiedOffers(s);
      assert !IsOfferSatisfied(s, o.id);
    }
  }

  /** The deal dictionary `get_deal` builds for `calculate_deal_commissions`:
      `None` for an unknown deal; otherwise the demand row and the offer row
      as `get_offer` returns it, with the property's columns flattened into
      the offer, so that it has no nested `property` key. The source raises
      when the deal's demand or offer row is gone; callers rule that out. */
  function StoredDealView(s: State, dealId: int): (v: Option<Commission.DealView>)
    requires dealId in s.deals.rows ==>
      s.deals.rows[dealId].demandId in s.demands.rows && s.deals.rows[dealId].offerId in s.offers.rows
    ensures v.Some? <==> dealId in s.deals.rows
    ensures v.Some? ==> v.value.offer.Some? && v.value.offer.value.property.None?
    ensures v.Some? ==>
      var deal := s.deals.rows[dealId];
      var offer := s.offers.rows[deal.offerId];
      && v.value.offer == Some(Commission.OfferView(None, Some(offer.price), Some(offer.realtorId)))
      && v.value.demand == Some(Commission.DemandView(Some(s.demands.rows[deal.demandId].realtorId)))
  {
    if dealId !in s.deals.rows then None
    else
      var deal := s.deals.rows[dealId];
      var offer := s.offers.rows[deal.offerId];
      var demand := s.demands.rows[deal.demandId];
      Some(Commission.DealView(
        Some(Commission.OfferView(None, Some(offer.price), Some(offer.realtorId))),
        Some(Commission.DemandView(Some(demand.realtorId)))))
  }

  /** What the deals screen shows for a stored deal, as written. */
  function StoredDealCommissions(s: State, dealId: int): (b: Commission.Breakdown)
    requires Valid(s)
    ensures dealId !in s.deals.rows ==> b == Commission.ZeroBreakdown
    ensures b.sellerRealtorShare + b.buyerRealtorShare + b.companyShare
            == b.sellerCommission + b.buyerCommission
  {
    Commission.DealCommissions(StoredDealView(s, dealId), s.realtors.rows)
  }

  /** As written, every stored deal is charged the apartment fee, whatever
      its property's type. */
  lemma StoredDealsChargeApartmentFee(s: State, dealId: int)
    requires Valid(s) && dealId in s.deals.rows
    ensures StoredDealCommissions(s, dealId).sellerCommission
            == 3000.0 + s.offers.rows[s.deals.rows[dealId].offerId].price as real
  {
  }

  /** A store holding one house let at 10000 a month, paired with a demand. */
  function HouseDealStore(): (s: State)
    ensures Valid(s) && 1 in s.deals.rows
  {
    var address := Address(None, None, None, None);
    State(
      Table(map[1 := Realtor("a", "b", "c", None)], 2),
      Table(map[1 := Client(None, None, None, Some("1"), None)], 2),
      Table(map[1 := Property(HouseDetails(None, None, None), address, None, None)], 2),
      Table(map[1 := Offer(1, 1, 1, 1, 10000, 12)], 2),
      Table(map[1 := Demand(1, 1, HouseCriteria(Range(None, None), Range(None, None), Range(None, None)),
                            address, 1, 20000, 1, 24)], 2),
      Table(map[1 := Deal(1, 1)], 2))
  }

  /** The discrepancy on a concrete deal: a house at 10000 a month is charged
      13000 (the apartment fee) where the house formula gives 7500. */
  lemma HouseDealChargedAsApartment()
    ensures StoredDealCommissions(HouseDealStore(), 1).sellerCommission == 13000.0
    ensures Commission.SellerCommission("house", 10000.0) == 7500.0
  {
  }

  /** The deal as the calculator expects it: the offer carries its property
      nested under `property`, with the property's type. */
  function NestedDealView(s: State, dealId: int): (v: Option<Commission.DealView>)
    requires Valid(s)
    ensures v.Some? <==> dealId in s.deals.rows
    ensures v.Some? ==>
      var offer := s.offers.rows[s.deals.rows[dealId].offerId];
      v.value.offer == Some(Commission.OfferView(
        Some(Commission.PropertyView(Some(TypeName(s.properties.rows[offer.propertyId].Type())))),
        Some(offer.price), Some(offer.realtorId)))
    ensures v.Some? ==>
      v.value.demand == Some(Commission.DemandView(Some(s.demands.rows[s.deals.rows[dealId].demandId].realtorId)))
  {
    if dealId !in s.deals.rows then None
    else
      var deal := s.deals.rows[dealId];
      var offer := s.offers.rows[deal.offerId];
      var demand := s.demands.rows[deal.demandId];
      var property := s.properties.rows[offer.propertyId];
      Some(Commission.DealView(
        Some(Commission.OfferView(Some(Commission.PropertyView(Some(TypeName(property.Type())))),
                                  Some(offer.price), Some(offer.realtorId))),
        Some(Commission.DemandView(Some(demand.realtorId)))))
  }

  /** The commissions with the property nested as intended. */
  function IntendedDealCommissions(s: State, dealId: int): (b: Commission.Breakdown)
    requires Valid(s)
    ensures dealId !in s.deals.rows ==> b == Commission.ZeroBreakdown
    ensures b.sellerRealtorShare + b.buyerRealtorShare + b.companyShare
            == b.sellerCommission + b.buyerCommission
  {
    Commission.DealCommissions(NestedDealView(s, dealId), s.realtors.rows)
  }

  /** With the property nested, each stored deal is charged by its own
      property's type, the buyer side is unchanged, and every share stays
      within its commission. */
  lemma IntendedDealsChargeByType(s: State, dealId: int)
    requires Valid(s) && dealId in s.deals.rows
    ensures var offer := s.offers.rows[s.deals.rows[dealId].offerId];
      var b := IntendedDealCommissions(s, dealId);
      && b.sellerCommission
         == Commission.SellerCommission(TypeName(s.properties.rows[offer.propertyId].Type()), offer.price as real)
      && b.buyerCommission == StoredDealCommissions(s, dealId).buyerCommission
      && b.buyerRealtorShare == StoredDealCommissions(s, dealId).buyerRealtorShare
      && 0.0 <= b.sellerRealtorShare <= b.sellerCommission
      && 0.0 <= b.buyerRealtorShare <= b.buyerCommission
      && b.companyShare >= 0.0
  {
    var offer := s.offers.rows[s.deals.rows[dealId].offerId];
    assert offer.price > 0;
    Commission.SharesBounded(NestedDealView(s, dealId), s.realtors.rows);
    Commission.DealCommissionsSplit(NestedDealView(s, dealId).value, s.realtors.rows);
    Commission.DealCommissionsSplit(StoredDealView(s, dealId).value, s.realtors.rows);
  }

  /** On the same house deal the intended reading charges the house fee. */
  lemma HouseDealChargedAsHouse()
    ensures IntendedDealCommissions(HouseDealStore(), 1).sellerCommission == 7500.0
  {
  }
}

=== FILE: commission.dfy ===
/** The commission engine: `CommissionCalculator` (commission_calculator.py).
    Amounts are exact reals; the final `round(..., 2)` is not modelled, so
    every property below is about the unrounded values. */
module Commission {
  import opened Wrappers
  import opened Records

  /** The share a found realtor keeps when their stored share is NULL or 0. */
  const DefaultSharePercent: real := 45.0

  /** The fraction used when no realtor record is found at all. It equals
      `DefaultSharePercent / 100` but is a separate branch in the source. */
  const FallbackFraction: real := 0.45

  /** The landlord-side commission for a property type given by name: a
      fixed fee plus a type-dependent part of the rent; any name other
      than the three known ones earns nothing. */
  function SellerCommission(propertyType: string, monthlyPrice: real): (r: real)
    ensures propertyType == "apartment" ==> r == 3000.0 + monthlyPrice
    ensures propertyType == "land" ==> r == 5000.0 + 0.6 * monthlyPrice
    ensures propertyType == "house" ==> r == 5000.0 + monthlyPrice / 4.0
    ensures propertyType !in {"apartment", "land", "house"} ==> r == 0.0
  {
    if propertyType == "apartment" then 3000.0 + monthlyPrice
    else if propertyType == "land" then
      var yearlyPrice := monthlyPrice * 12.0;
      5000.0 + yearlyPrice * 0.05
    else if propertyType == "house" then 5000.0 + monthlyPrice * 0.25
    else 0.0
  }

  /** The tenant-side commission: a tenth of the monthly rent, whatever the
      property. */
  function BuyerCommission(monthlyPrice: real): (r: real)
    ensures monthlyPrice >= 0.0 ==> 0.0 <= r <= monthlyPrice
    ensures 10.0 * r == monthlyPrice
  {
    monthlyPrice * 0.10
  }

  /** A known type earns at least its fixed fee on a non-negative rent and
      grows strictly with the rent; every type earns a non-negative amount. */
  lemma SellerCommissionShape(t: PropertyType, p: real, q: real)
    requires 0.0 <= p < q
    ensures SellerCommission(TypeName(t), p) >= (if t == Apartment then 3000.0 else 5000.0)
    ensures SellerCommission(TypeName(t), p) < SellerCommission(TypeName(t), q)
    ensures forall s :: SellerCommission(s, p) >= 0.0
  {
  }

  // ---------------------------------------------------------------------
  // The deal as the calculator sees it: nested dictionaries whose keys may
  // be absent. `None` below stands for a missing key.
  // ---------------------------------------------------------------------

  /** `offer['property']`, of which only the `type` key is read. */
  datatype PropertyView = PropertyView(typeName: Option<string>)

  /** The keys of `deal['offer']` the calculator reads. */
  datatype OfferView = OfferView(
    property: Option<PropertyView>,
    price: Option<int>,
    realtorId: Option<int>)

  /** The key of `deal['demand']` the calculator reads. */
  datatype DemandView = DemandView(realtorId: Option<int>)

  /** A deal dictionary: `offer` is `None` when the key is absent. */
  datatype DealView = DealView(offer: Option<OfferView>, demand: Option<DemandView>)

  /** The five amounts the calculator reports. */
  datatype Breakdown = Breakdown(
    sellerCommission: real,
    buyerCommission: real,
    sellerRealtorShare: real,
    buyerRealtorShare: real,
    companyShare: real)

  const ZeroBreakdown := Breakdown(0.0, 0.0, 0.0, 0.0, 0.0)

  /** Python truthiness of an id: `None` and `0` are false. */
  predicate IdGiven(id: Option<int>) {
    id.Some? && id.value != 0
  }

  /** The realtor looked up for an id, if the id is given and known. */
  function FindRealtor(id: Option<int>, realtors: map<int, Realtor>): (r: Option<Realtor>)
    ensures r.Some? <==> IdGiven(id) && id.value in realtors
    ensures r.Some? ==> r.value == realtors[id.value]
  {
    if IdGiven(id) && id.value in realtors then Some(realtors[id.value]) else None
  }

  /** The fraction of a commission the realtor with this id keeps: their
      share as a fraction, where an unset or zero share means 45%, and 45%
      when no realtor is found. */
  function RealtorFraction(id: Option<int>, realtors: map<int, Realtor>): (f: real)
    ensures FindRealtor(id, realtors).None? ==> f == 0.45
    ensures FindRealtor(id, realtors).Some? ==>
      var share := FindRealtor(id, realtors).value.commissionShare;
      (share.None? || share.value == 0.0 ==> f == 0.45)
      && (share.Some? && share.value != 0.0 ==> 100.0 * f == share.value)
  {
    match FindRealtor(id, realtors)
    case Some(realtor) =>
      var share :=
        if realtor.commissionShare.None? || realtor.commissionShare.value == 0.0
        then DefaultSharePercent
        else realtor.commissionShare.value;
      share / 100.0
    case None => FallbackFraction
  }

  /** A well-formed realtor keeps a fraction between 0 and 1 (strictly
      positive, since 0 reads as the default). */
  lemma RealtorFractionBounds(id: Option<int>, realtors: map<int, Realtor>)
    requires forall k :: k in realtors ==> RealtorWellFormed(realtors[k])
    ensures 0.0 < RealtorFraction(id, realtors) <= 1.0
  {
  }

  /** The type the calculator uses: `offer['property']['type']`, defaulting
      to "apartment" when either key is missing. */
  function OfferType(offer: OfferView): (t: string)
    ensures offer.property.Some? && offer.property.value.typeName.Some? ==>
      t == offer.property.value.typeName.value
    ensures offer.property.None? || offer.property.value.typeName.None? ==> t == "apartment"
  {
    match offer.property
    case Some(PropertyView(Some(name))) => name
    case _ => "apartment"
  }

  /** `float(offer.get('price', 0))`. */
  function OfferPrice(offer: OfferView): (p: real)
    ensures offer.price.Some? ==> p == offer.price.value as real
    ensures offer.price.None? ==> p == 0.0
  {
    match offer.price
    case Some(n) => n as real
    case None => 0.0
  }

  /** The demand side's realtor id: `deal.get('demand', {}).get('realtor_id')`. */
  function BuyerRealtorId(deal: DealView): (id: Option<int>)
    ensures id.Some? <==> deal.demand.Some? && deal.demand.value.realtorId.Some?
    ensures id.Some? ==> id == deal.demand.value.realtorId
  {
    match deal.demand
    case Some(DemandView(Some(n))) => Some(n)
    case _ => None
  }

  /** Splits each side's commission between that side's realtor, who keeps
      the given fraction, and the company, which keeps the rest. */
  function Split(sellerCommission: real, buyerCommission: real,
                 sellerFraction: real, buyerFraction: real): (b: Breakdown)
    ensures b.sellerCommission == sellerCommission && b.buyerCommission == buyerCommission
    ensures b.sellerRealtorShare + b.buyerRealtorShare + b.companyShare
            == sellerCommission + buyerCommission
  {
    var sellerRealtorShare := sellerCommission * sellerFraction;
    var buyerRealtorShare := buyerCommission * buyerFraction;
    var companyShare := (sellerCommission - sellerRealtorShare) + (buyerCommission - buyerRealtorShare);
    Breakdown(sellerCommission, buyerCommission, sellerRealtorShare, buyerRealtorShare, companyShare)
  }

  /** `calculate_deal_commissions` before rounding. */
  function DealCommissions(deal: Option<DealView>, realtors: map<int, Realtor>): (b: Breakdown)
    ensures deal.None? || deal.value.offer.None? ==> b == ZeroBreakdown
    ensures b.sellerRealtorShare + b.buyerRealtorShare + b.companyShare
            == b.sellerCommission + b.buyerCommission
  {
    if deal.None? || deal.value.offer.None? then ZeroBreakdown
    else
      var offer := deal.value.offer.value;
      var monthlyPrice := OfferPrice(offer);
      Split(SellerCommission(OfferType(offer), monthlyPrice),
            BuyerCommission(monthlyPrice),
            RealtorFraction(offer.realtorId, realtors),
            RealtorFraction(BuyerRealtorId(deal.value), realtors))
  }

  /** With well-formed realtors and a non-negative price, each realtor gets
      between nothing and the whole of their own side's commission, and the
      company's share is non-negative. */
  lemma SharesBounded(deal: Option<DealView>, realtors: map<int, Realtor>)
    requires forall k :: k in realtors ==> RealtorWellFormed(realtors[k])
    requires deal.Some? && deal.value.offer.Some? ==> OfferPrice(deal.value.offer.value) >= 0.0
    ensures var b := DealCommissions(deal, realtors);
      && 0.0 <= b.sellerRealtorShare <= b.sellerCommission
      && 0.0 <= b.buyerRealtorShare <= b.buyerCommission
      && b.companyShare >= 0.0
  {
    if deal.Some? && deal.value.offer.Some? {
      var offer := deal.value.offer.value;
      var price := OfferPrice(offer);
      RealtorFractionBounds(offer.realtorId, realtors);
      RealtorFractionBounds(BuyerRealtorId(deal.value), realtors);
      SellerCommissionShape(Apartment, price, price + 1.0);
      SplitBounded(SellerCommission(OfferType(offer), price), BuyerCommission(price),
                   RealtorFraction(offer.realtorId, realtors),
                   RealtorFraction(BuyerRealtorId(deal.value), realtors));
    }
  }

  /** Splitting non-negative commissions by fractions in (0, 1] gives each
      party a part between nothing and the whole. */
  lemma SplitBounded(sellerCommission: real, buyerCommission: real,
                     sellerFraction: real, buyerFraction: real)
    requires sellerCommission >= 0.0 && buyerCommission >= 0.0
    requires 0.0 < sellerFraction <= 1.0 && 0.0 < buyerFraction <= 1.0
    ensures var b := Split(sellerCommission, buyerCommission, sellerFraction, buyerFraction);
      && 0.0 <= b.sellerRealtorShare <= sellerCommission
      && 0.0 <= b.buyerRealtorShare <= buyerCommission
      && b.companyShare >= 0.0
  {
  }

  /** A present offer's breakdown is the split of its two commissions by
      the offer's realtor's and the demand's realtor's fractions. */
  lemma DealCommissionsSplit(deal: DealView, realtors: map<int, Realtor>)
    requires deal.offer.Some?
    ensures DealCommissions(Some(deal), realtors)
      == Split(SellerCommission(OfferType(deal.offer.value), OfferPrice(deal.offer.value)),
               BuyerCommission(OfferPrice(deal.offer.value)),
               RealtorFraction(deal.offer.value.realtorId, realtors),
               RealtorFraction(BuyerRealtorId(deal), realtors))
  {
  }

  /** The seller's realtor is the offer's, the buyer's is the demand's:
      replacing the demand (and so the buyer's realtor) leaves the seller
      side as it was, and replacing the offer's realtor leaves the buyer
      side as it was. */
  lemma SidesIndependent(deal: DealView, realtors: map<int, Realtor>,
                         otherOfferRealtor: Option<int>, otherDemand: Option<DemandView>)
    requires deal.offer.Some?
    ensures var b := DealCommissions(Some(deal), realtors);
      var b1 := DealCommissions(Some(deal.(demand := otherDemand)), realtors);
      b1.sellerCommission == b.sellerCommission && b1.sellerRealtorShare == b.sellerRealtorShare
    ensures var b := DealCommissions(Some(deal), realtors);
      var b2 := DealCommissions(Some(deal.(offer := Some(deal.offer.value.(realtorId := otherOfferRealtor)))), realtors);
      b2.buyerCommission == b.buyerCommission && b2.buyerRealtorShare == b.buyerRealtorShare
  {
    var offer := deal.offer.value;
    var d1 := deal.(demand := otherDemand);
    var offer2 := offer.(realtorId := otherOfferRealtor);
    var d2 := deal.(offer := Some(offer2));
    var sc := SellerCommission(OfferType(offer), OfferPrice(offer));
    var bc := BuyerCommission(OfferPrice(offer));
    var fs := RealtorFraction(offer.realtorId, realtors);
    var fb := RealtorFraction(BuyerRealtorId(deal), realtors);
    DealCommissionsSplit(deal, realtors);
    DealCommissionsSplit(d1, realtors);
    DealCommissionsSplit(d2, realtors);
    assert OfferType(offer2) == OfferType(offer) && OfferPrice(offer2) == OfferPrice(offer);
    assert BuyerRealtorId(d2) == BuyerRealtorId(deal);
    SplitSides(sc, bc, fs, fb, RealtorFraction(BuyerRealtorId(d1), realtors));
    SplitSides(sc, bc, fs, fb, fb);
    SplitSidesBuyer(sc, bc, fs, fb, RealtorFraction(otherOfferRealtor, realtors));
  }

  /** In a split, the seller side does not read the buyer's fraction ... */
  lemma SplitSides(sc: real, bc: real, fs: real, fb: real, fb': real)
    ensures Split(sc, bc, fs, fb).sellerRealtorShare == Split(sc, bc, fs, fb').sellerRealtorShare
    ensures Split(sc, bc, fs, fb).sellerRealtorShare == sc * fs
  {
  }

  /** ... and the buyer side does not read the seller's. */
  lemma SplitSidesBuyer(sc: real, bc: real, fs: real, fb: real, fs': real)
    ensures Split(sc, bc, fs, fb).buyerRealtorShare == Split(sc, bc, fs', fb).buyerRealtorShare
    ensures Split(sc, bc, fs, fb).buyerRealtorShare == bc * fb
  {
  }

  /** An offer without a nested property is charged the apartment fee,
      and one without a price is charged as if the rent were 0. */
  lemma MissingKeysDefault(deal: DealView, realtors: map<int, Realtor>)
    requires deal.offer.Some?
    ensures deal.offer.value.property.None? ==>
      DealCommissions(Some(deal), realtors).sellerCommission == 3000.0 + OfferPrice(deal.offer.value)
    ensures deal.offer.value.price.None? ==>
      DealCommissions(Some(deal), realtors).buyerCommission == 0.0
  {
  }

  /** The worked example: an apartment at 10000 a month whose realtors are
      both unknown splits 14000 into 5850 + 450 for the realtors and 7700
      for the company. A known realtor with no stored share gives the same. */
  lemma WorkedExample(realtors: map<int, Realtor>, r: Realtor)
    requires 7 !in realtors && r.commissionShare.None?
    ensures DealCommissions(
      Some(DealView(Some(OfferView(Some(PropertyView(Some("apartment"))), Some(10000), Some(7))),
                    Some(DemandView(None)))), realtors)
      == Breakdown(13000.0, 1000.0, 5850.0, 450.0, 7700.0)
    ensures DealCommissions(
      Some(DealView(Some(OfferView(Some(PropertyView(Some("apartment"))), Some(10000), Some(7))),
                    Some(DemandView(Some(7))))), realtors[7 := r])
      == Breakdown(13000.0, 1000.0, 5850.0, 450.0, 7700.0)
  {
  }
}

=== FILE: invariants.dfy ===
/** The store's invariant — the schema's CHECK and UNIQUE constraints plus
    referential integrity — and the proof that every guarded operation
    keeps it. */
module StoreInvariants {
  import opened Wrappers
  import opened Records
  import opened Store

  /** No demand and no offer appears in two deals (the UNIQUE columns of
      table deals): deals are a one-to-one pairing. */
  predicate PairingInjective(deals: map<int, Deal>) {
    forall j, k :: j in deals && k in deals && j != k ==>
      deals[j].demandId != deals[k].demandId && deals[j].offerId != deals[k].offerId
  }

  /** Every row satisfies its table's CHECK constraints, and every offer
      row carries its own id. */
  predicate RowsWellFormed(s: State) {
    && (forall k :: k in s.realtors.rows ==> RealtorWellFormed(s.realtors.rows[k]))
    && (forall k :: k in s.clients.rows ==> ClientWellFormed(s.clients.rows[k]))
    && (forall k :: k in s.properties.rows ==> PropertyWellFormed(s.properties.rows[k]))
    && (forall k :: k in s.offers.rows ==> OfferWellFormed(s.offers.rows[k]) && s.offers.rows[k].id == k)
    && (forall k :: k in s.demands.rows ==> DemandWellFormed(s.demands.rows[k]))
  }

  /** Every id a row mentions names an existing row. */
  predicate ReferencesResolve(s: State) {
    && (forall k :: k in s.offers.rows ==>
          && s.offers.rows[k].clientId in s.clients.rows
          && s.offers.rows[k].realtorId in s.realtors.rows
          && s.offers.rows[k].propertyId in s.properties.rows)
    && (forall k :: k in s.demands.rows ==>
          s.demands.rows[k].clientId in s.clients.rows && s.demands.rows[k].realtorId in s.realtors.rows)
    && (forall k :: k in s.deals.rows ==>
          s.deals.rows[k].demandId in s.demands.rows && s.deals.rows[k].offerId in s.offers.rows)
  }

  predicate Valid(s: State) {
    RowsWellFormed(s) && ReferencesResolve(s) && PairingInjective(s.deals.rows)
  }

  /** The store as `create_tables` leaves it. */
  const Initial: State :=
    State(Table(map[], 1), Table(map[], 1), Table(map[], 1), Table(map[], 1), Table(map[], 1), Table(map[], 1))

  /** The empty store is valid and nothing in it is paired yet. */
  lemma InitialValid(id: int)
    ensures Valid(Initial)
    ensures !IsDemandSatisfied(Initial, id) && !IsOfferSatisfied(Initial, id)
  {
  }

  // ---------------------------------------------------------------------
  // Insertions.
  // ---------------------------------------------------------------------

  lemma AddRealtorPreservesValid(s: State, surname: string, name: string, patronymic: string,
                                 share: Option<real>)
    requires Valid(s)
    ensures var r := AddRealtor(s, surname, name, patronymic, share);
      r.Success? ==> Valid(r.value.0) && RealtorWellFormed(r.value.0.realtors.rows[r.value.1])
  {
  }

  lemma AddClientPreservesValid(s: State, surname: Option<string>, name: Option<string>,
                                patronymic: Option<string>, phone: Option<string>, email: Option<string>)
    requires Valid(s)
    ensures var r := AddClient(s, surname, name, patronymic, phone, email);
      r.Success? ==> Valid(r.value.0) && ClientWellFormed(r.value.0.clients.rows[r.value.1])
  {
  }

  lemma AddPropertyPreservesValid(s: State, typeName: string, address: Address,
                                  latitude: Option<real>, longitude: Option<real>, extras: Extras)
    requires Valid(s)
    ensures var r := AddProperty(s, typeName, address, latitude, longitude, extras);
      r.Success? ==> Valid(r.value.0)
  {
  }

  lemma AddOfferPreservesValid(s: State, clientId: int, realtorId: int, propertyId: int,
                               price: int, rentalPeriod: int)
    requires Valid(s)
    ensures var r := AddOffer(s, clientId, realtorId, propertyId, price, rentalPeriod);
      r.Success? ==> Valid(r.value.0)
  {
  }

  /** A successful `add_deal` keeps the pairing one-to-one: the guards
      refuse a demand or offer that is already paired. */
  lemma AddDealPreservesValid(s: State, demandId: int, offerId: int)
    requires Valid(s)
    ensures var r := AddDeal(s, demandId, offerId);
      r.Success? ==>
        var (s', id) := r.value;
        && Valid(s')
        && forall k :: k in s'.deals.rows && k != id ==>
             s'.deals.rows[k].demandId != demandId && s'.deals.rows[k].offerId != offerId
  {
  }

  /** Issues the `add_deal` calls in order; a call that raises leaves the
      store as it was. */
  function RunAddDeals(s: State, requests: seq<(int, int)>): State
    decreases |requests|
  {
    if |requests| == 0 then s
    else
      var r := AddDeal(s, requests[0].0, requests[0].1);
      RunAddDeals(if r.Success? then r.value.0 else s, requests[1..])
  }

  /** Whatever sequence of `add_deal` calls is made, the store stays valid,
      so every demand and every offer ends up in at most one deal, and the
      deals already recorded are kept as they were. */
  lemma {:induction false} RunAddDealsKeepsPairing(s: State, requests: seq<(int, int)>)
    requires Valid(s)
    ensures Valid(RunAddDeals(s, requests))
    ensures forall k :: k in s.deals.rows ==>
      k in RunAddDeals(s, requests).deals.rows && RunAddDeals(s, requests).deals.rows[k] == s.deals.rows[k]
    decreases |requests|
  {
    if |requests| > 0 {
      var r := AddDeal(s, requests[0].0, requests[0].1);
      AddDealPreservesValid(s, requests[0].0, requests[0].1);
      RunAddDealsKeepsPairing(if r.Success? then r.value.0 else s, requests[1..]);
    }
  }

  // ---------------------------------------------------------------------
  // Deletions: the guards are exactly what referential integrity needs.
  // ---------------------------------------------------------------------

  lemma DeleteRealtorPreservesValid(s: State, id: int)
    requires Valid(s)
    ensures var r := DeleteRealtor(s, id); r.Success? ==> Valid(r.value.0)
  {
  }

  lemma DeleteClientPreservesValid(s: State, id: int)
    requires Valid(s)
    ensures var r := DeleteClient(s, id); r.Success? ==> Valid(r.value.0)
  {
  }

  lemma DeletePropertyPreservesValid(s: State, id: int)
    requires Valid(s)
    ensures Valid(DeleteProperty(s, id).0)
  {
  }

  lemma DeleteOfferPreservesValid(s: State, id: int)
    requires Valid(s)
    ensures var r := DeleteOffer(s, id); r.Success? ==> Valid(r.value.0)
  {
  }

  lemma DeleteDemandPreservesValid(s: State, id: int)
    requires Valid(s)
    ensures Valid(DeleteDemand(s, id).0)
  {
  }

  lemma DeleteDealPreservesValid(s: State, id: int)
    requires Valid(s)
    ensures Valid(DeleteDeal(s, id))
  {
  }

  /** Deleting a deal undoes adding it: the tables hold the same rows again,
      and the demand and offer may be paired anew. */
  lemma DeleteDealUndoesAddDeal(s: State, demandId: int, offerId: int)
    requires Valid(s)
    ensures var r := AddDeal(s, demandId, offerId);
      r.Success? ==>
        var s' := DeleteDeal(r.value.0, r.value.1);
        && s'.deals.rows == s.deals.rows
        && s' == s.(deals := s'.deals)
        && AddDeal(s', demandId, offerId).Success?
  {
  }
}

=== FILE: matching.dfy ===
/** The demand/offer matching engine: `Database.check_match` and the filter
    `Database.get_matching_offers` (database.py:702-803). */
module Matching {
  import opened Wrappers
  import opened Records

  // ---------------------------------------------------------------------
  // The clauses of a match, stated declaratively.
  // ---------------------------------------------------------------------

  /** A demand's address field constrains only when it is set and non-empty,
      and then demands exact equality (a `NULL` property field never equals it). */
  predicate FieldAgrees(wanted: Option<string>, actual: Option<string>) {
    Truthy(wanted) ==> actual == wanted
  }

  predicate AddressAgrees(wanted: Address, actual: Address) {
    && FieldAgrees(wanted.city, actual.city)
    && FieldAgrees(wanted.street, actual.street)
    && FieldAgrees(wanted.houseNumber, actual.houseNumber)
    && FieldAgrees(wanted.apartmentNumber, actual.apartmentNumber)
  }

  /** Both bands are inclusive at each end. */
  predicate PriceInBand(d: Demand, o: Offer) {
    d.minPrice <= o.price <= d.maxPrice
  }

  predicate PeriodInBand(d: Demand, o: Offer) {
    d.minRentalPeriod <= o.rentalPeriod <= d.maxRentalPeriod
  }

  /** The asymmetric range policy: an attribute constrains only when both
      the demand's lower bound and the property's value are present; the
      upper bound is then honoured if present. */
  predicate WithinRange(r: Range<real>, v: Option<real>) {
    r.min.Some? && v.Some? ==>
      r.min.value <= v.value && (r.max.Some? ==> v.value <= r.max.value)
  }

  /** Apartments are checked on floor, rooms and area; houses on floors,
      rooms and area; land on area alone. Differing kinds never reach this
      test, because the type check comes first. */
  predicate DetailsWithin(c: Criteria, p: Details) {
    match (c, p)
    case (ApartmentCriteria(area, rooms, floor), ApartmentDetails(f, n, a)) =>
      WithinRange(Lift(floor), AsReal(f)) && WithinRange(Lift(rooms), AsReal(n)) && WithinRange(area, a)
    case (HouseCriteria(area, rooms, floors), HouseDetails(f, n, a)) =>
      WithinRange(Lift(floors), AsReal(f)) && WithinRange(Lift(rooms), AsReal(n)) && WithinRange(area, a)
    case (LandCriteria(area), LandDetails(a)) =>
      WithinRange(area, a)
    case _ => false
  }

  /** An offer on property `p` satisfies demand `d` when every clause holds. */
  predicate Matches(d: Demand, p: Property, o: Offer) {
    && d.Type() == p.Type()
    && AddressAgrees(d.address, p.address)
    && PriceInBand(d, o)
    && PeriodInBand(d, o)
    && DetailsWithin(d.criteria, p.details)
  }

  // ---------------------------------------------------------------------
  // check_match, with the source's order of early returns.
  // ---------------------------------------------------------------------

  /** One attribute of step 5: consulted only when the demand's minimum and
      the property's value are both present. */
  method CheckRange(r: Range<real>, v: Option<real>) returns (ok: bool)
    ensures ok == WithinRange(r, v)
    ensures r.min.None? || v.None? ==> ok
    ensures r.min.Some? && v.Some? && r.max.None? ==> (ok <==> v.value >= r.min.value)
    ensures r.min.Some? && v.Some? && r.max.Some? ==>
      (ok <==> r.min.value <= v.value <= r.max.value)
  {
    ok := true;
    if r.min.Some? && v.Some? {
      if r.max.Some? {
        if !(r.min.value <= v.value <= r.max.value) {
          ok := false;
        }
      } else {
        if v.value < r.min.value {
          ok := false;
        }
      }
    }
  }

  method CheckMatch(d: Demand, p: Property, o: Offer) returns (r: bool)
    ensures r == Matches(d, p, o)
    ensures d.Type() != p.Type() ==> !r
    ensures r ==> d.minPrice <= o.price <= d.maxPrice
    ensures r ==> d.minRentalPeriod <= o.rentalPeriod <= d.maxRentalPeriod
    ensures r && Truthy(d.address.city) ==> p.address.city == d.address.city
    ensures r && Truthy(d.address.street) ==> p.address.street == d.address.street
    ensures r && Truthy(d.address.houseNumber) ==> p.address.houseNumber == d.address.houseNumber
    ensures r && Truthy(d.address.apartmentNumber) ==> p.address.apartmentNumber == d.address.apartmentNumber
  {
    if d.Type() != p.Type() {
      return false;
    }
    if Truthy(d.address.city) && p.address.city != d.address.city {
      return false;
    }
    if Truthy(d.address.street) && p.address.street != d.address.street {
      return false;
    }
    if Truthy(d.address.houseNumber) && p.address.houseNumber != d.address.houseNumber {
      return false;
    }
    if Truthy(d.address.apartmentNumber) && p.address.apartmentNumber != d.address.apartmentNumber {
      return false;
    }
    if !(d.minPrice <= o.price <= d.maxPrice) {
      return false;
    }
    if !(d.minRentalPeriod <= o.rentalPeriod <= d.maxRentalPeriod) {
      return false;
    }
    var ok: bool;
    match d.criteria {
      case ApartmentCriteria(area, rooms, floor) =>
        ok := CheckRange(Lift(floor), AsReal(p.details.floor));
        if !ok { return false; }
        ok := CheckRange(Lift(rooms), AsReal(p.details.rooms));
        if !ok { return false; }
        ok := CheckRange(area, p.details.area);
        if !ok { return false; }
      case HouseCriteria(area, rooms, floors) =>
        ok := CheckRange(Lift(floors), AsReal(p.details.floors));
        if !ok { return false; }
        ok := CheckRange(Lift(rooms), AsReal(p.details.rooms));
        if !ok { return false; }
        ok := CheckRange(area, p.details.area);
        if !ok { return false; }
      case LandCriteria(area) =>
        ok := CheckRange(area, p.details.area);
        if !ok { return false; }
    }
    return true;
  }

  // ---------------------------------------------------------------------
  // Properties of the matching predicate.
  // ---------------------------------------------------------------------

  /** A set, non-empty address field passes exactly the properties whose
      field equals it; an unset or empty one passes every property. */
  lemma AddressFieldExact(wanted: Option<string>, actual: Option<string>)
    ensures Truthy(wanted) ==> (FieldAgrees(wanted, actual) <==> actual == wanted)
    ensures !Truthy(wanted) ==> FieldAgrees(wanted, actual)
    ensures Truthy(wanted) ==> !FieldAgrees(wanted, None)
  {
  }

  /** An offer priced (or let) exactly at either end of the band passes that
      clause; one unit outside either end fails it. */
  lemma BandsInclusive(d: Demand, o: Offer)
    requires d.minPrice <= d.maxPrice && d.minRentalPeriod <= d.maxRentalPeriod
    ensures PriceInBand(d, o.(price := d.minPrice)) && PriceInBand(d, o.(price := d.maxPrice))
    ensures !PriceInBand(d, o.(price := d.minPrice - 1)) && !PriceInBand(d, o.(price := d.maxPrice + 1))
    ensures PeriodInBand(d, o.(rentalPeriod := d.minRentalPeriod))
    ensures PeriodInBand(d, o.(rentalPeriod := d.maxRentalPeriod))
    ensures !PeriodInBand(d, o.(rentalPeriod := d.minRentalPeriod - 1))
    ensures !PeriodInBand(d, o.(rentalPeriod := d.maxRentalPeriod + 1))
  {
  }

  /** Without a lower bound the attribute never rejects, whatever the upper
      bound and the value: a "max only" demand constrains nothing. */
  lemma MaxOnlyIgnored(r: Range<real>, v: Option<real>, w: Option<real>)
    requires r.min.None?
    ensures WithinRange(r, v) && WithinRange(r, w)
  {
  }

  /** The range policy is not symmetric: a demand capped at `max` with no
      lower bound admits a value far above the cap, while the mirror-image
      demand with only a lower bound rejects a value below it. */
  lemma RangePolicyAsymmetric()
    ensures WithinRange(Range(None, Some(50.0)), Some(1000.0))
    ensures !WithinRange(Range(Some(50.0), None), Some(1.0))
  {
  }

  /** Matching reads nothing but the clauses: coordinates, the client and
      realtor on either side, and the offer's own ids never change it. */
  lemma MatchIgnoresBookkeeping(d: Demand, p: Property, o: Offer,
                                d': Demand, p': Property, o': Offer)
    requires d'.criteria == d.criteria && d'.address == d.address
    requires d'.minPrice == d.minPrice && d'.maxPrice == d.maxPrice
    requires d'.minRentalPeriod == d.minRentalPeriod && d'.maxRentalPeriod == d.maxRentalPeriod
    requires p'.details == p.details && p'.address == p.address
    requires o'.price == o.price && o'.rentalPeriod == o.rentalPeriod
    ensures Matches(d, p, o) <==> Matches(d', p', o')
  {
  }

  /** A land demand consults only the area; for every kind, an attribute
      whose lower bound is unset may take any value without changing the
      result. */
  lemma UnboundedAttributeIrrelevant(d: Demand, p: Property, o: Offer, v: Option<int>, w: Option<real>)
    ensures d.criteria.ApartmentCriteria? && d.criteria.floor.min.None? && p.details.ApartmentDetails? ==>
      (Matches(d, p, o) <==> Matches(d, p.(details := p.details.(floor := v)), o))
    ensures d.criteria.HouseCriteria? && d.criteria.floors.min.None? && p.details.HouseDetails? ==>
      (Matches(d, p, o) <==> Matches(d, p.(details := p.details.(floors := v)), o))
    ensures !d.criteria.LandCriteria? && d.criteria.rooms.min.None? && !p.details.LandDetails? ==>
      (Matches(d, p, o) <==> Matches(d, p.(details := p.details.(rooms := v)), o))
    ensures d.criteria.area.min.None? ==>
      (Matches(d, p, o) <==> Matches(d, p.(details := p.details.(area := w)), o))
  {
  }

  // ---------------------------------------------------------------------
  // get_matching_offers as an order-preserving filter.
  // ---------------------------------------------------------------------

  /** `a` is `b` with some elements left out and the rest in their order. */
  predicate IsSubsequence<T(==)>(a: seq<T>, b: seq<T>)
    decreases |b|
  {
    if |a| == 0 then true
    else if |b| == 0 then false
    else if a[|a| - 1] == b[|b| - 1] then IsSubsequence(a[..|a| - 1], b[..|b| - 1])
    else IsSubsequence(a, b[..|b| - 1])
  }

  /** A subsequence is no longer than its source and draws its elements
      from it. */
  lemma {:induction false} SubsequenceElements<T>(a: seq<T>, b: seq<T>)
    requires IsSubsequence(a, b)
    ensures |a| <= |b|
    ensures forall x :: x in a ==> x in b
    decreases |b|
  {
    if |a| == 0 {
    } else if a[|a| - 1] == b[|b| - 1] {
      SubsequenceElements(a[..|a| - 1], b[..|b| - 1]);
      assert a == a[..|a| - 1] + [a[|a| - 1]];
      assert b == b[..|b| - 1] + [b[|b| - 1]];
    } else {
      SubsequenceElements(a, b[..|b| - 1]);
      assert b == b[..|b| - 1] + [b[|b| - 1]];
    }
  }

  /** An offer survives the filter when it is not yet in a deal, its
      property is on record, and it matches the demand. */
  predicate Eligible(d: Demand, properties: map<int, Property>, satisfied: set<int>, o: Offer) {
    && o.id !in satisfied
    && o.propertyId in properties
    && Matches(d, properties[o.propertyId], o)
  }

  /** The offers eligible for `d`, in the order they were listed. */
  function MatchingOffers(d: Demand, offers: seq<Offer>, properties: map<int, Property>,
                          satisfied: set<int>): (r: seq<Offer>)
    ensures forall o :: o in r <==> o in offers && Eligible(d, properties, satisfied, o)
    ensures IsSubsequence(r, offers)
    decreases |offers|
  {
    if |offers| == 0 then []
    else
      var last := offers[|offers| - 1];
      var prefix := MatchingOffers(d, offers[..|offers| - 1], properties, satisfied);
      assert offers == offers[..|offers| - 1] + [last];
      if Eligible(d, properties, satisfied, last) then prefix + [last]
      else prefix
  }

  /** The filter keeps every copy of an eligible offer and no copy of any
      other: it is the sub-multiset of eligible listings. */
  lemma {:induction false} MatchingOffersKeepsCopies(d: Demand, offers: seq<Offer>,
                                                    properties: map<int, Property>, satisfied: set<int>)
    ensures forall o ::
              multiset(MatchingOffers(d, offers, properties, satisfied))[o]
              == if Eligible(d, properties, satisfied, o) then multiset(offers)[o] else 0
    decreases |offers|
  {
    if |offers| > 0 {
      var prefix := offers[..|offers| - 1];
      MatchingOffersKeepsCopies(d, prefix, properties, satisfied);
      assert offers == prefix + [offers[|offers| - 1]];
    }
  }

  /** The loop of `get_matching_offers`: no demand, no offers; otherwise
      each listed offer is skipped when satisfied, skipped when its
      property is missing, and kept when `check_match` accepts it. */
  method GetMatchingOffers(demand: Option<Demand>, offers: seq<Offer>,
                           properties: map<int, Property>, satisfied: set<int>)
    returns (matching: seq<Offer>)
    ensures demand.None? ==> matching == []
    ensures demand.Some? ==> matching == MatchingOffers(demand.value, offers, properties, satisfied)
    ensures IsSubsequence(matching, offers) && |matching| <= |offers|
    ensures forall o :: o in matching <==>
      demand.Some? && o in offers && o.id !in satisfied && o.propertyId in properties
      && Matches(demand.value, properties[o.propertyId], o)
  {
    if demand.None? {
      return [];
    }
    var d := demand.value;
    matching := [];
    var i := 0;
    while i < |offers|
      invariant 0 <= i <= |offers|
      invariant matching == MatchingOffers(d, offers[..i], properties, satisfied)
    {
      var offer := offers[i];
      assert offers[..i + 1][..i] == offers[..i];
      if offer.id in satisfied {
        i := i + 1;
        continue;
      }
      if offer.propertyId !in properties {
        i := i + 1;
        continue;
      }
      var ok := CheckMatch(d, properties[offer.propertyId], offer);
      if ok {
        matching := matching + [offer];
      }
      i := i + 1;
    }
    assert offers[..|offers|] == offers;
    SubsequenceElements(matching, offers);
  }
}

=== FILE: records.dfy ===
/** The records of the agency's store and the CHECK constraints its schema
    places on them (database.py, create_tables). */
module Records {
  import opened Wrappers

  /** The three kinds of real estate; the schema admits no other `type`. */
  datatype PropertyType = Apartment | House | Land

  /** The text the store and the commission engine use for each kind. */
  function TypeName(t: PropertyType): string {
    match t
    case Apartment => "apartment"
    case House => "house"
    case Land => "land"
  }

  /** Reads a type name back, refusing anything outside the schema's list. */
  function ParseType(s: string): (r: Option<PropertyType>)
    ensures r.Some? <==> s in {"apartment", "house", "land"}
    ensures r.Some? ==> TypeName(r.value) == s
  {
    if s == "apartment" then Some(Apartment)
    else if s == "house" then Some(House)
    else if s == "land" then Some(Land)
    else None
  }

  /** Parsing a printed type name gives the type back, and distinct types
      print differently. */
  lemma ParseTypeName(t: PropertyType)
    ensures ParseType(TypeName(t)) == Some(t)
    ensures forall u :: TypeName(u) == TypeName(t) ==> u == t
  {
    match t
    case Apartment =>
    case House =>
    case Land =>
  }

  /** Python truthiness of an optional text value: `None` and `""` are false. */
  predicate Truthy(s: Option<string>) {
    s.Some? && s.value != ""
  }

  /** The four address columns shared by properties and demands. */
  datatype Address = Address(
    city: Option<string>,
    street: Option<string>,
    houseNumber: Option<string>,
    apartmentNumber: Option<string>)

  /** The type-specific columns of a property (tables apartments, houses,
      lands); a property whose row is missing has every field `None`. */
  datatype Details =
    | ApartmentDetails(floor: Option<int>, rooms: Option<int>, area: Option<real>)
    | HouseDetails(floors: Option<int>, rooms: Option<int>, area: Option<real>)
    | LandDetails(area: Option<real>)

  datatype Property = Property(
    details: Details,
    address: Address,
    latitude: Option<real>,
    longitude: Option<real>)
  {
    function Type(): PropertyType {
      match details
      case ApartmentDetails(_, _, _) => Apartment
      case HouseDetails(_, _, _) => House
      case LandDetails(_) => Land
    }
  }

  /** A pair of optional bounds a demand places on one numeric attribute. */
  datatype Range<T> = Range(min: Option<T>, max: Option<T>)

  /** An integer column read as a number; Python compares ints and floats
      by value, so one range policy over `real` serves both. */
  function AsReal(x: Option<int>): Option<real> {
    match x
    case Some(v) => Some(v as real)
    case None => None
  }

  function Lift(r: Range<int>): Range<real> {
    Range(AsReal(r.min), AsReal(r.max))
  }

  /** The type-specific columns of a demand (tables apartment_demands,
      house_demands, land_demands). */
  datatype Criteria =
    | ApartmentCriteria(area: Range<real>, rooms: Range<int>, floor: Range<int>)
    | HouseCriteria(area: Range<real>, rooms: Range<int>, floors: Range<int>)
    | LandCriteria(area: Range<real>)

  datatype Demand = Demand(
    clientId: int,
    realtorId: int,
    criteria: Criteria,
    address: Address,
    minPrice: int,
    maxPrice: int,
    minRentalPeriod: int,
    maxRentalPeriod: int)
  {
    function Type(): PropertyType {
      match criteria
      case ApartmentCriteria(_, _, _) => Apartment
      case HouseCriteria(_, _, _) => House
      case LandCriteria(_) => Land
    }
  }

  /** An offer keeps its own id: the matching filter reports offers by value
      and consults the set of satisfied offer ids. */
  datatype Offer = Offer(
    id: int,
    clientId: int,
    realtorId: int,
    propertyId: int,
    price: int,
    rentalPeriod: int)

  datatype Realtor = Realtor(
    surname: string,
    name: string,
    patronymic: string,
    commissionShare: Option<real>)

  datatype Client = Client(
    surname: Option<string>,
    name: Option<string>,
    patronymic: Option<string>,
    phone: Option<string>,
    email: Option<string>)

  /** A deal pairs one demand with one offer. */
  datatype Deal = Deal(demandId: int, offerId: int)

  // ---------------------------------------------------------------------
  // Schema CHECK constraints, one predicate per table.
  // ---------------------------------------------------------------------

  /** `commission_share` is NULL or a percentage in [0, 100]. */
  predicate RealtorWellFormed(r: Realtor) {
    r.commissionShare.Some? ==> 0.0 <= r.commissionShare.value <= 100.0
  }

  /** A client has at least a phone or an e-mail. */
  predicate ClientWellFormed(c: Client) {
    c.phone.Some? || c.email.Some?
  }

  /** Coordinates, when present, are a valid latitude and longitude. */
  predicate PropertyWellFormed(p: Property) {
    && (p.latitude.Some? ==> -90.0 <= p.latitude.value <= 90.0)
    && (p.longitude.Some? ==> -180.0 <= p.longitude.value <= 180.0)
  }

  /** Price and rental period are positive. */
  predicate OfferWellFormed(o: Offer) {
    o.price > 0 && o.rentalPeriod > 0
  }

  /** A range pair is consistent when either bound is NULL or max >= min. */
  predicate RangeWellFormed(r: Range<real>) {
    r.max.None? || r.min.None? || r.max.value >= r.min.value
  }

  predicate CriteriaWellFormed(c: Criteria) {
    match c
    case ApartmentCriteria(area, rooms, floor) =>
      RangeWellFormed(area) && RangeWellFormed(Lift(rooms)) && RangeWellFormed(Lift(floor))
    case HouseCriteria(area, rooms, floors) =>
      RangeWellFormed(area) && RangeWellFormed(Lift(rooms)) && RangeWellFormed(Lift(floors))
    case LandCriteria(area) =>
      RangeWellFormed(area)
  }

  /** Price and period bands are positive and ordered; the type-specific
      ranges are consistent. */
  predicate DemandWellFormed(d: Demand) {
    && d.minPrice > 0 && d.maxPrice > 0 && d.maxPrice >= d.minPrice
    && d.minRentalPeriod > 0 && d.maxRentalPeriod > 0
    && d.maxRentalPeriod >= d.minRentalPeriod
    && CriteriaWellFormed(d.criteria)
  }
}

=== FILE: store.dfy ===
/** The agency's store as an abstract state: one table per entity, and the
    guarded operations of `Database` that insert and delete rows
    (database.py: add_realtor, add_client, add_property, add_offer,
    add_deal, the delete_* operations and the is_*_satisfied queries). */
module Store {
  import opened Wrappers
  import opened Records
  import Text

  /** A table whose ids are handed out by AUTOINCREMENT: from 1 upwards,
      never reused. `next` is the id the next insertion receives. */
  datatype Table<T> = Table(rows: map<int, T>, next: int) {

    predicate Valid() {
      next >= 1 && forall k :: k in rows ==> 1 <= k < next
    }

    /** Adds `row` under a fresh id and returns that id. */
    function Insert(row: T): (r: (Table<T>, int))
      requires Valid()
      ensures r.0.Valid() && r.1 !in rows && r.1 >= 1
      ensures r.0.rows == rows[r.1 := row]
      ensures r.0.next > r.1 && forall k :: k in rows ==> k < r.1
    {
      (Table(rows[next := row], next + 1), next)
    }

    function Remove(id: int): (t: Table<T>)
      ensures t.rows == rows - {id} && t.next == next
      ensures Valid() ==> t.Valid()
    {
      Table(rows - {id}, next)
    }
  }

  /** The tables the store holds: their ids are always below `next`. */
  type IdTable<T> = t: Table<T> | t.Valid() witness Table(map[], 1)

  datatype State = State(
    realtors: IdTable<Realtor>,
    clients: IdTable<Client>,
    properties: IdTable<Property>,
    offers: IdTable<Offer>,
    demands: IdTable<Demand>,
    deals: IdTable<Deal>)

  /** The `ValueError`s the guarded operations raise. */
  datatype Error =
    | MissingName
    | ShareOutOfRange
    | NoContact
    | MalformedEmail
    | UnknownPropertyType
    | LatitudeOutOfRange
    | LongitudeOutOfRange
    | NonPositivePrice
    | NonPositiveRentalPeriod
    | RealtorNotFound
    | ClientNotFound
    | PropertyNotFound
    | OfferNotFound
    | DemandNotFound
    | DemandAlreadySatisfied
    | OfferAlreadySatisfied

  // ---------------------------------------------------------------------
  // Realtors.
  // ---------------------------------------------------------------------

  /** The first check of `add_realtor` that fails, if any. */
  function RealtorInputError(surname: string, name: string, patronymic: string,
                             share: Option<real>): (e: Option<Error>)
    ensures e == Some(MissingName) <==> surname == "" || name == "" || patronymic == ""
    ensures e == Some(ShareOutOfRange) <==>
      surname != "" && name != "" && patronymic != ""
      && share.Some? && !(0.0 <= share.value <= 100.0)
    ensures e.None? <==>
      surname != "" && name != "" && patronymic != ""
      && (share.Some? ==> 0.0 <= share.value <= 100.0)
    ensures e.None? ==> RealtorWellFormed(Realtor(surname, name, patronymic, share))
  {
    if surname == "" || name == "" || patronymic == "" then Some(MissingName)
    else if share.Some? && (share.value < 0.0 || share.value > 100.0) then Some(ShareOutOfRange)
    else None
  }

  /** `add_realtor`: the share is stored as given, so an omitted share is
      stored as NULL (the column default is not applied). */
  function AddRealtor(s: State, surname: string, name: string, patronymic: string,
                      share: Option<real>): (r: Result<(State, int), Error>)
    ensures r.Failure? <==> RealtorInputError(surname, name, patronymic, share).Some?
    ensures r.Failure? ==> r.error == RealtorInputError(surname, name, patronymic, share).value
    ensures r.Success? ==>
      var (s', id) := r.value;
      && id !in s.realtors.rows
      && s'.realtors.rows == s.realtors.rows[id := Realtor(surname, name, patronymic, share)]
      && s' == s.(realtors := s'.realtors)
  {
    match RealtorInputError(surname, name, patronymic, share)
    case Some(e) => Failure(e)
    case None =>
      var (t, id) := s.realtors.Insert(Realtor(surname, name, patronymic, share));
      Success((s.(realtors := t), id))
  }

  /** A realtor is referenced while some offer or demand names them. */
  predicate RealtorReferenced(s: State, id: int) {
    || (exists k :: k in s.offers.rows && s.offers.rows[k].realtorId == id)
    || (exists k :: k in s.demands.rows && s.demands.rows[k].realtorId == id)
  }

  /** `delete_realtor`: an unknown id raises; a referenced realtor is kept
      and `False` returned; otherwise the row goes and `True` is returned. */
  function DeleteRealtor(s: State, id: int): (r: Result<(State, bool), Error>)
    ensures r.Failure? <==> id !in s.realtors.rows
    ensures r.Failure? ==> r.error == RealtorNotFound
    ensures r.Success? ==> (r.value.1 <==> !RealtorReferenced(s, id))
    ensures r.Success? && !r.value.1 ==> r.value.0 == s
    ensures r.Success? && r.value.1 ==>
      r.value.0 == s.(realtors := s.realtors.Remove(id)) && id !in r.value.0.realtors.rows
  {
    if id !in s.realtors.rows then Failure(RealtorNotFound)
    else if exists k :: k in s.offers.rows && s.offers.rows[k].realtorId == id then Success((s, false))
    else if exists k :: k in s.demands.rows && s.demands.rows[k].realtorId == id then Success((s, false))
    else Success((s.(realtors := s.realtors.Remove(id)), true))
  }

  // ---------------------------------------------------------------------
  // Clients.
  // ---------------------------------------------------------------------

  /** `x.strip() if x else None`: a missing or empty value stays missing;
      anything else is stripped, and may become empty. */
  function NormalizeContact(x: Option<string>): (r: Option<string>)
    ensures r.None? <==> !Truthy(x)
    ensures r.Some? ==> |r.value| <= |x.value| && Text.IsStripOf(r.value, x.value)
  {
    if Truthy(x) then Some(Text.Strip(x.value)) else None
  }

  /** A contact counts as given exactly when it holds a non-space character. */
  lemma NormalizeContactTruthy(x: Option<string>)
    ensures Truthy(NormalizeContact(x)) <==> x.Some? && !Text.AllSpace(x.value)
  {
  }

  /** The first check of `add_client` that fails on the normalised phone and
      e-mail, if any. */
  function ClientInputError(phone: Option<string>, email: Option<string>): (e: Option<Error>)
    ensures e == Some(NoContact) <==> !Truthy(phone) && !Truthy(email)
    ensures e == Some(MalformedEmail) <==>
      (Truthy(phone) || Truthy(email)) && Truthy(email) && '@' !in email.value
    ensures e.None? <==>
      (Truthy(phone) || Truthy(email)) && (Truthy(email) ==> '@' in email.value)
    ensures e.None? ==> phone.Some? || email.Some?
  {
    if !Truthy(phone) && !Truthy(email) then Some(NoContact)
    else if Truthy(email) && '@' !in email.value then Some(MalformedEmail)
    else None
  }

  /** `add_client`: stores the normalised phone and e-mail. */
  function AddClient(s: State, surname: Option<string>, name: Option<string>,
                     patronymic: Option<string>, phone: Option<string>,
                     email: Option<string>): (r: Result<(State, int), Error>)
    ensures var p := NormalizeContact(phone); var m := NormalizeContact(email);
      && (r.Failure? <==> ClientInputError(p, m).Some?)
      && (r.Failure? ==> r.error == ClientInputError(p, m).value)
      && (r.Success? ==>
            var (s', id) := r.value;
            && id !in s.clients.rows
            && s'.clients.rows == s.clients.rows[id := Client(surname, name, patronymic, p, m)]
            && s' == s.(clients := s'.clients))
  {
    var p := NormalizeContact(phone);
    var m := NormalizeContact(email);
    match ClientInputError(p, m)
    case Some(e) => Failure(e)
    case None =>
      var (t, id) := s.clients.Insert(Client(surname, name, patronymic, p, m));
      Success((s.(clients := t), id))
  }

  /** A client is referenced while some offer or demand names them. */
  predicate ClientReferenced(s: State, id: int) {
    || (exists k :: k in s.offers.rows && s.offers.rows[k].clientId == id)
    || (exists k :: k in s.demands.rows && s.demands.rows[k].clientId == id)
  }

  /** `delete_client`, guarded like `delete_realtor`. */
  function DeleteClient(s: State, id: int): (r: Result<(State, bool), Error>)
    ensures r.Failure? <==> id !in s.clients.rows
    ensures r.Failure? ==> r.error == ClientNotFound
    ensures r.Success? ==> (r.value.1 <==> !ClientReferenced(s, id))
    ensures r.Success? && !r.value.1 ==> r.value.0 == s
    ensures r.Success? && r.value.1 ==>
      r.value.0 == s.(clients := s.clients.Remove(id)) && id !in r.value.0.clients.rows
  {
    if id !in s.clients.rows then Failure(ClientNotFound)
    else if exists k :: k in s.offers.rows && s.offers.rows[k].clientId == id then Success((s, false))
    else if exists k :: k in s.demands.rows && s.demands.rows[k].clientId == id then Success((s, false))
    else Success((s.(clients := s.clients.Remove(id)), true))
  }

  // ---------------------------------------------------------------------
  // Properties.
  // ---------------------------------------------------------------------

  /** The type-specific keyword arguments `add_property` accepts. */
  datatype Extras = Extras(floor: Option<int>, floors: Option<int>, rooms: Option<int>, area: Option<real>)

  /** The extension row written for a property of type `t`: only the
      arguments that belong to `t` are kept. */
  function DetailsFor(t: PropertyType, x: Extras): (d: Details)
    ensures Property(d, Address(None, None, None, None), None, None).Type() == t
    ensures d.area == x.area
    ensures t != Land ==> d.rooms == x.rooms
    ensures t == Apartment ==> d.floor == x.floor
    ensures t == House ==> d.floors == x.floors
  {
    match t
    case Apartment => ApartmentDetails(x.floor, x.rooms, x.area)
    case House => HouseDetails(x.floors, x.rooms, x.area)
    case Land => LandDetails(x.area)
  }

  /** The first check of `add_property` that fails, if any. */
  function PropertyInputError(typeName: string, latitude: Option<real>,
                              longitude: Option<real>): (e: Option<Error>)
    ensures e == Some(UnknownPropertyType) <==> typeName !in {"apartment", "house", "land"}
    ensures e == Some(LatitudeOutOfRange) <==>
      typeName in {"apartment", "house", "land"}
      && latitude.Some? && !(-90.0 <= latitude.value <= 90.0)
    ensures e == Some(LongitudeOutOfRange) <==>
      typeName in {"apartment", "house", "land"}
      && (latitude.Some? ==> -90.0 <= latitude.value <= 90.0)
      && longitude.Some? && !(-180.0 <= longitude.value <= 180.0)
    ensures e.None? <==>
      && ParseType(typeName).Some?
      && PropertyWellFormed(Property(LandDetails(None), Address(None, None, None, None), latitude, longitude))
  {
    if ParseType(typeName).None? then Some(UnknownPropertyType)
    else if latitude.Some? && (latitude.value < -90.0 || latitude.value > 90.0) then Some(LatitudeOutOfRange)
    else if longitude.Some? && (longitude.value < -180.0 || longitude.value > 180.0) then Some(LongitudeOutOfRange)
    else None
  }

  /** `add_property`. */
  function AddProperty(s: State, typeName: string, address: Address, latitude: Option<real>,
                       longitude: Option<real>, extras: Extras): (r: Result<(State, int), Error>)
    ensures r.Failure? <==> PropertyInputError(typeName, latitude, longitude).Some?
    ensures r.Failure? ==> r.error == PropertyInputError(typeName, latitude, longitude).value
    ensures r.Success? ==>
      var (s', id) := r.value;
      && id !in s.properties.rows && id in s'.properties.rows
      && TypeName(s'.properties.rows[id].Type()) == typeName
      && PropertyWellFormed(s'.properties.rows[id])
      && s'.properties.rows[id].address == address
      && s'.properties.rows == s.properties.rows[id :=
           Property(DetailsFor(ParseType(typeName).value, extras), address, latitude, longitude)]
      && s' == s.(properties := s'.properties)
  {
    match PropertyInputError(typeName, latitude, longitude)
    case Some(e) => Failure(e)
    case None =>
      var t := ParseType(typeName).value;
      var (table, id) := s.properties.Insert(Property(DetailsFor(t, extras), address, latitude, longitude));
      Success((s.(properties := table), id))
  }

  /** `delete_property`: no existence check; kept while an offer uses it. */
  function DeleteProperty(s: State, id: int): (r: (State, bool))
    ensures r.1 <==> !(exists k :: k in s.offers.rows && s.offers.rows[k].propertyId == id)
    ensures !r.1 ==> r.0 == s
    ensures r.1 ==> r.0 == s.(properties := s.properties.Remove(id)) && id !in r.0.properties.rows
  {
    if exists k :: k in s.offers.rows && s.offers.rows[k].propertyId == id then (s, false)
    else (s.(properties := s.properties.Remove(id)), true)
  }

  // ---------------------------------------------------------------------
  // Offers and demands.
  // ---------------------------------------------------------------------

  /** The first check of `add_offer` that fails, if any: the numbers are
      checked before the referenced rows. */
  function OfferInputError(s: State, clientId: int, realtorId: int, propertyId: int,
                           price: int, rentalPeriod: int): (e: Option<Error>)
    ensures e == Some(NonPositivePrice) <==> price <= 0
    ensures e == Some(NonPositiveRentalPeriod) <==> price > 0 && rentalPeriod <= 0
    ensures e == Some(ClientNotFound) <==>
      price > 0 && rentalPeriod > 0 && clientId !in s.clients.rows
    ensures e == Some(RealtorNotFound) <==>
      price > 0 && rentalPeriod > 0 && clientId in s.clients.rows
      && realtorId !in s.realtors.rows
    ensures e == Some(PropertyNotFound) <==>
      price > 0 && rentalPeriod > 0 && clientId in s.clients.rows
      && realtorId in s.realtors.rows && propertyId !in s.properties.rows
    ensures e.None? <==>
      && price > 0 && rentalPeriod > 0
      && clientId in s.clients.rows && realtorId in s.realtors.rows
      && propertyId in s.properties.rows
  {
    if price <= 0 then Some(NonPositivePrice)
    else if rentalPeriod <= 0 then Some(NonPositiveRentalPeriod)
    else if clientId !in s.clients.rows then Some(ClientNotFound)
    else if realtorId !in s.realtors.rows then Some(RealtorNotFound)
    else if propertyId !in s.properties.rows then Some(PropertyNotFound)
    else None
  }

  /** `add_offer`. */
  function AddOffer(s: State, clientId: int, realtorId: int, propertyId: int,
                    price: int, rentalPeriod: int): (r: Result<(State, int), Error>)
    ensures r.Failure? <==> OfferInputError(s, clientId, realtorId, propertyId, price, rentalPeriod).Some?
    ensures r.Failure? ==>
      r.error == OfferInputError(s, clientId, realtorId, propertyId, price, rentalPeriod).value
    ensures r.Success? ==>
      var (s', id) := r.value;
      && id !in s.offers.rows
      && s'.offers.rows == s.offers.rows[id := Offer(id, clientId, realtorId, propertyId, price, rentalPeriod)]
      && OfferWellFormed(s'.offers.rows[id])
      && s' == s.(offers := s'.offers)
  {
    match OfferInputError(s, clientId, realtorId, propertyId, price, rentalPeriod)
    case Some(e) => Failure(e)
    case None =>
      var id := s.offers.next;
      var (t, _) := s.offers.Insert(Offer(id, clientId, realtorId, propertyId, price, rentalPeriod));
      Success((s.(offers := t), id))
  }

  /** `delete_offer`: an unknown id raises; an offer in a deal is kept. */
  function DeleteOffer(s: State, id: int): (r: Result<(State, bool), Error>)
    ensures r.Failure? <==> id !in s.offers.rows
    ensures r.Failure? ==> r.error == OfferNotFound
    ensures r.Success? ==> (r.value.1 <==> !IsOfferSatisfied(s, id))
    ensures r.Success? && !r.value.1 ==> r.value.0 == s
    ensures r.Success? && r.value.1 ==>
      r.value.0 == s.(offers := s.offers.Remove(id)) && id !in r.value.0.offers.rows
  {
    if id !in s.offers.rows then Failure(OfferNotFound)
    else if IsOfferSatisfied(s, id) then Success((s, false))
    else Success((s.(offers := s.offers.Remove(id)), true))
  }

  /** `delete_demand`: no existence check; a demand in a deal is kept. */
  function DeleteDemand(s: State, id: int): (r: (State, bool))
    ensures r.1 <==> !IsDemandSatisfied(s, id)
    ensures !r.1 ==> r.0 == s
    ensures r.1 ==> r.0 == s.(demands := s.demands.Remove(id)) && id !in r.0.demands.rows
  {
    if IsDemandSatisfied(s, id) then (s, false)
    else (s.(demands := s.demands.Remove(id)), true)
  }

  // ---------------------------------------------------------------------
  // Deals.
  // ---------------------------------------------------------------------

  /** The deal rows that name `demandId`: what `is_demand_satisfied` counts. */
  function DealsOfDemand(s: State, demandId: int): set<int> {
    set k | k in s.deals.rows && s.deals.rows[k].demandId == demandId
  }

  /** The deal rows that name `offerId`: what `is_offer_satisfied` counts. */
  function DealsOfOffer(s: State, offerId: int): set<int> {
    set k | k in s.deals.rows && s.deals.rows[k].offerId == offerId
  }

  /** `is_demand_satisfied`: some deal already uses the demand, that is, the
      count of deal rows naming it is positive. */
  predicate IsDemandSatisfied(s: State, demandId: int)
    ensures IsDemandSatisfied(s, demandId) <==> |DealsOfDemand(s, demandId)| > 0
  {
    var used := exists k :: k in s.deals.rows && s.deals.rows[k].demandId == demandId;
    assert used ==> |DealsOfDemand(s, demandId)| > 0 by {
      if used {
        var k :| k in s.deals.rows && s.deals.rows[k].demandId == demandId;
        assert k in DealsOfDemand(s, demandId);
      }
    }
    assert !used ==> DealsOfDemand(s, demandId) == {} by {
      if !used {
        forall k | k in DealsOfDemand(s, demandId) ensures false { }
      }
    }
    used
  }

  /** `is_offer_satisfied`: some deal already uses the offer, that is, the
      count of deal rows naming it is positive. */
  predicate IsOfferSatisfied(s: State, offerId: int)
    ensures IsOfferSatisfied(s, offerId) <==> |DealsOfOffer(s, offerId)| > 0
  {
    var used := exists k :: k in s.deals.rows && s.deals.rows[k].offerId == offerId;
    assert used ==> |DealsOfOffer(s, offerId)| > 0 by {
      if used {
        var k :| k in s.deals.rows && s.deals.rows[k].offerId == offerId;
        assert k in DealsOfOffer(s, offerId);
      }
    }
    assert !used ==> DealsOfOffer(s, offerId) == {} by {
      if !used {
        forall k | k in DealsOfOffer(s, offerId) ensures false { }
      }
    }
    used
  }

  /** The ids of all offers already in a deal. */
  function SatisfiedOffers(s: State): (ids: set<int>)
    ensures forall id :: id in ids <==> IsOfferSatisfied(s, id)
  {
    set k | k in s.deals.rows :: s.deals.rows[k].offerId
  }

  /** The first check of `add_deal` that fails, if any. */
  function DealInputError(s: State, demandId: int, offerId: int): (e: Option<Error>)
    ensures e.None? <==>
      && demandId in s.demands.rows && offerId in s.offers.rows
      && !IsDemandSatisfied(s, demandId) && !IsOfferSatisfied(s, offerId)
    ensures demandId !in s.demands.rows ==> e == Some(DemandNotFound)
    ensures demandId in s.demands.rows && offerId !in s.offers.rows ==> e == Some(OfferNotFound)
    ensures e == Some(DemandAlreadySatisfied) <==>
      demandId in s.demands.rows && offerId in s.offers.rows && IsDemandSatisfied(s, demandId)
    ensures e == Some(OfferAlreadySatisfied) <==>
      demandId in s.demands.rows && offerId in s.offers.rows
      && !IsDemandSatisfied(s, demandId) && IsOfferSatisfied(s, offerId)
  {
    if demandId !in s.demands.rows then Some(DemandNotFound)
    else if offerId !in s.offers.rows then Some(OfferNotFound)
    else if IsDemandSatisfied(s, demandId) then Some(DemandAlreadySatisfied)
    else if IsOfferSatisfied(s, offerId) then Some(OfferAlreadySatisfied)
    else None
  }

  /** `add_deal`: pairs a known, unpaired demand with a known, unpaired offer. */
  function AddDeal(s: State, demandId: int, offerId: int): (r: Result<(State, int), Error>)
    ensures r.Failure? <==> DealInputError(s, demandId, offerId).Some?
    ensures r.Failure? ==> r.error == DealInputError(s, demandId, offerId).value
    ensures r.Success? ==>
      var (s', id) := r.value;
      && id !in s.deals.rows
      && s'.deals.rows == s.deals.rows[id := Deal(demandId, offerId)]
      && s' == s.(deals := s'.deals)
      && IsDemandSatisfied(s', demandId) && IsOfferSatisfied(s', offerId)
  {
    match DealInputError(s, demandId, offerId)
    case Some(e) => Failure(e)
    case None =>
      var (t, id) := s.deals.Insert(Deal(demandId, offerId));
      var s' := s.(deals := t);
      assert s'.deals.rows[id].demandId == demandId;
      Success((s', id))
  }

  /** `delete_deal`: unguarded; the paired demand and offer become free. */
  function DeleteDeal(s: State, id: int): (s': State)
    ensures s'.deals.rows == s.deals.rows - {id}
    ensures s' == s.(deals := s'.deals)
  {
    s.(deals := s.deals.Remove(id))
  }
}

=== FILE: text.dfy ===
/** Python's `str.strip()` with no argument, as used on a client's phone and
    e-mail before they are validated (database.py:240-241). */
module Text {

  /** The characters `str.isspace()` accepts. */
  predicate IsSpace(c: char) {
    || ('\U{0009}' <= c <= '\U{000D}')
    || ('\U{001C}' <= c <= '\U{0020}')
    || c == '\U{0085}' || c == '\U{00A0}' || c == '\U{1680}'
    || ('\U{2000}' <= c <= '\U{200A}')
    || c == '\U{2028}' || c == '\U{2029}' || c == '\U{202F}'
    || c == '\U{205F}' || c == '\U{3000}'
  }

  predicate AllSpace(s: string) {
    forall k :: 0 <= k < |s| ==> IsSpace(s[k])
  }

  /** `s` without its leading whitespace: a suffix of `s` that is empty or
      starts with a non-space, everything cut off being whitespace. */
  function TrimStart(s: string): (r: string)
    ensures |r| <= |s| && r == s[|s| - |r|..]
    ensures AllSpace(s[..|s| - |r|])
    ensures |r| > 0 ==> !IsSpace(r[0])
    decreases |s|
  {
    if |s| > 0 && IsSpace(s[0]) then
      var r := TrimStart(s[1..]);
      assert s[1..][..|s| - 1 - |r|] == s[1..|s| - |r|];
      r
    else s
  }

  /** `s` without its trailing whitespace: a prefix of `s` that is empty or
      ends with a non-space, everything cut off being whitespace. */
  function TrimEnd(s: string): (r: string)
    ensures |r| <= |s| && r == s[..|r|]
    ensures AllSpace(s[|r|..])
    ensures |r| > 0 ==> !IsSpace(r[|r| - 1])
    decreases |s|
  {
    if |s| > 0 && IsSpace(s[|s| - 1]) then
      var r := TrimEnd(s[..|s| - 1]);
      assert s[..|s| - 1][|r|..] == s[|r|..|s| - 1];
      r
    else s
  }

  /** `r` is `s` with its leading and trailing whitespace cut off: a slice
      `s[i..j]` with only whitespace outside it and, unless it is empty, a
      non-space at both of its ends. */
  predicate IsStripOf(r: string, s: string) {
    exists i, j :: 0 <= i <= j <= |s| && StripCut(s, i, j) && r == s[i..j]
  }

  /** `str.strip()`: the slice of `s` between its leading and its trailing
      whitespace, empty exactly when `s` is all whitespace. */
  function Strip(s: string): (r: string)
    ensures IsStripOf(r, s)
    ensures r == "" <==> AllSpace(s)
  {
    var t := TrimStart(s);
    var r := TrimEnd(t);
    TrimsStrip(s, t, r);
    r
  }

  /** What trimming the front and then the back leaves is the strip of `s`. */
  lemma {:induction false} TrimsStrip(s: string, t: string, r: string)
    requires |t| <= |s| && t == s[|s| - |t|..] && AllSpace(s[..|s| - |t|])
    requires |t| > 0 ==> !IsSpace(t[0])
    requires |r| <= |t| && r == t[..|r|] && AllSpace(t[|r|..])
    requires |r| > 0 ==> !IsSpace(r[|r| - 1])
    ensures IsStripOf(r, s)
    ensures r == "" <==> AllSpace(s)
  {
    var i := |s| - |t|;
    SuffixPrefixCut(s, t, r);
    EmptyCut(s, i, i + |r|);
    assert 0 <= i <= i + |r| <= |s| && StripCut(s, i, i + |r|) && r == s[i..i + |r|];
  }

  /** A prefix `r` of a suffix `t` of `s`, each cut off at whitespace and
      bounded by a non-space, is a `StripCut` slice of `s`. */
  lemma {:induction false} SuffixPrefixCut(s: string, t: string, r: string)
    requires |t| <= |s| && t == s[|s| - |t|..] && AllSpace(s[..|s| - |t|])
    requires |t| > 0 ==> !IsSpace(t[0])
    requires |r| <= |t| && r == t[..|r|] && AllSpace(t[|r|..])
    requires |r| > 0 ==> !IsSpace(r[|r| - 1])
    ensures var i := |s| - |t|; StripCut(s, i, i + |r|) && r == s[i..i + |r|]
  {
    var i := |s| - |t|;
    var j := i + |r|;
    assert r == s[i..j];
    assert s[j..] == t[|r|..];
    assert i < j ==> s[i] == t[0] && s[j - 1] == r[|r| - 1];
  }

  /** A cut selects nothing exactly when `s` is all whitespace. */
  lemma {:induction false} EmptyCut(s: string, i: int, j: int)
    requires StripCut(s, i, j)
    ensures i == j <==> AllSpace(s)
  {
    if i == j {
      SpaceBefore(s, i);
      SpaceAfter(s, j);
    } else {
      assert !IsSpace(s[i]);
    }
  }

  /** Every character before an all-whitespace cut is whitespace. */
  lemma {:induction false} SpaceBefore(s: string, n: int)
    requires 0 <= n <= |s| && AllSpace(s[..n])
    ensures forall k :: 0 <= k < n ==> IsSpace(s[k])
  {
    forall k | 0 <= k < n
      ensures IsSpace(s[k])
    {
      assert s[..n][k] == s[k];
    }
  }

  /** Every character after an all-whitespace cut is whitespace. */
  lemma {:induction false} SpaceAfter(s: string, n: int)
    requires 0 <= n <= |s| && AllSpace(s[n..])
    ensures forall k :: n <= k < |s| ==> IsSpace(s[k])
  {
    forall k | n <= k < |s|
      ensures IsSpace(s[k])
    {
      assert s[n..][k - n] == s[k];
    }
  }

  /** `s[i..j]` with whitespace outside and a non-space at each end. */
  predicate StripCut(s: string, i: int, j: int) {
    && 0 <= i <= j <= |s| && AllSpace(s[..i]) && AllSpace(s[j..])
    && (i < j ==> !IsSpace(s[i]) && !IsSpace(s[j - 1]))
  }

  /** Two such cuts of the same text select the same slice. */
  lemma {:induction false} StripCutUnique(s: string, i: int, j: int, i': int, j': int)
    requires StripCut(s, i, j) && StripCut(s, i', j')
    ensures s[i..j] == s[i'..j']
  {
    SpaceBefore(s, i);
    SpaceAfter(s, j);
    SpaceBefore(s, i');
    SpaceAfter(s, j');
    assert i < j ==> i' < j' by {
      if i < j { assert !IsSpace(s[i]); }
    }
    assert i' < j' ==> i < j by {
      if i' < j' { assert !IsSpace(s[i']); }
    }
    if i < j {
      assert i <= i' && i' <= i;
      assert j <= j' && j' <= j;
    }
  }

  /** The description pins the result down: whatever satisfies `IsStripOf`
      is what `Strip` returns. */
  lemma {:induction false} StripDetermined(r: string, s: string)
    requires IsStripOf(r, s)
    ensures r == Strip(s)
  {
    var i, j :| StripCut(s, i, j) && r == s[i..j];
    var i', j' :| StripCut(s, i', j') && Strip(s) == s[i'..j'];
    StripCutUnique(s, i, j, i', j');
  }
}

=== FILE: wrappers.dfy ===
/** The two wrapper types the model uses for Python's `None` and for a
    storage operation that raises `ValueError` instead of returning. */
module Wrappers {

  /** A value that may be missing: `None` in Python, `NULL` in a column,
      or a key absent from a dictionary. */
  datatype Option<+T> = None | Some(value: T)

  /** Either the operation's value or the error it raised. */
  datatype Result<+T, +E> = Success(value: T) | Failure(error: E)
}
